=== FILE: README.md ===
# Trivia API request handlers, modelled in Dafny

This project models the request handlers of the trivia question bank backend
(`backend/flaskr/__init__.py`). Each handler becomes a pure function over an
abstract store. The store holds the question table in id order, the category
table as a map from id to type label, and the next id the table's serial
column will hand out. A handler returns `Ok(response)` or `Err(failure)`.
A failure is either `Abort(code)` or a Python exception `Raised(kind)`.
`Status` gives the HTTP code a client sees. `TryExcept` models a `try` block
with a catch-all `except` that calls `abort(422)`. It catches the HTTP
exception raised by `abort(404)` as well, so a 404 raised inside such a block
reaches the client as 422.

Modules:

- `Outcomes` (outcomes.dfy): `Option`, `Result`, failures, `TryExcept`, `Status`.
- `Text` (text.dfy): ASCII case folding, case-insensitive containment, and
  Python's `str.format()` called with no arguments.
- `Like` (like.dfy): the database's `ILIKE` pattern match. `%` matches any run
  of characters, `_` matches one character, and a backslash escapes the next
  character.
- `Paging` (paging.dfy): the ten-row page window, using Python's slice rules.
- `Trivia` (trivia.dfy): question rows, the store, and its invariant: ids
  strictly ascending and all below the next id. Also the `filter(...)` clause
  over an ordered table, and the lookup by id.
- `Handlers` (handlers.dfy): one function per endpoint.
- `Properties` (properties.dfy): lemmas relating several calls, such as create
  followed by list or delete, and search against containment.

Behaviour of the code that the model keeps as written:

- Listing answers 404 for an empty page. This includes page 0. A negative page
  is not rejected: Python's slice counts it back from the end of the table.
- Create reads the `page` argument too. It inserts the row even when that page
  is empty, and then answers 422.
- The category view answers 422, not 404, for an empty page. Its
  `total_questions` is the length of the page. Its `current_category` is the
  category's type passed through `str.format()`. A doubled brace comes out as a
  single one, and a type with a lone brace or a replacement field makes the
  request fail with 422.
- The quiz answers 422 when no question is left, because it formats `None`. It
  also answers 422 when `quiz_category` or `previous_questions` is missing.
- The corrected search never answers 404: no match gives an empty page with
  total 0. The repository's tests (`backend/test_flaskr.py:116-122`) expect 404
  there. The code has no path that produces it, so the model follows the code.
- A delete of a missing id answers 422, as `backend/test_flaskr.py:98-104`
  expects. As written, the reason is the lookup at line 103: it raises for
  every id, so the check at line 104 is never reached (see Findings). With the
  lookup fixed (`Handlers.DeleteQuestion`), the answer is still 422, because
  the 404 for a missing id is raised inside the `try`.

## Model

| member | source | states |
|---|---|---|
| `Outcomes.CaughtFailureIsUnprocessable` | backend/flaskr/__init__.py:127-129 | whatever the `try` body does, the catch-all `except` answers 200 or 422 and never 404; a success passes through unchanged |
| `Text.Format` | backend/flaskr/__init__.py:223 | `str.format()` with no arguments never lengthens a string, and returns it unchanged exactly when it holds no braces |
| `Text.FormatEscapeRoundTrip` | backend/flaskr/__init__.py:223 | formatting undoes the doubling of braces, for every string |
| `Text.FormatOnlyUndoesEscaping` | backend/flaskr/__init__.py:223 | whatever formats is the brace-doubled form of its result, so a lone brace or a replacement field fails; with the round trip, `Format(s) == Some(t)` exactly when `s` is `t` with its braces doubled |
| `Like.AnyRunMatchesAll` | backend/flaskr/__init__.py:185 | the `ILIKE` pattern `%` matches every text |
| `Like.LiteralPrefixMatch` | backend/flaskr/__init__.py:185 | for a term without wildcards, `term%` matches exactly the texts that start with the term, ignoring case |
| `Like.SearchPatternIsContainment` | backend/flaskr/__init__.py:185 | for a term without wildcards, the search pattern `%term%` matches a text exactly when the text contains the term, ignoring case |
| `Paging.Slice` | backend/flaskr/__init__.py:17 | `s[start:end]` returns only elements of `s`, never more than `s` holds; for bounds with `0 <= start <= end` it is the clamped window |
| `Paging.Paginate` | backend/flaskr/__init__.py:9-19 | a page holds at most 10 rows; for page 1 or more, row i of the page is row `(page-1)*10 + i` of the selection, in order, and the page is empty exactly when `(page-1)*10` is at least the selection's length; page 0 is empty |
| `Paging.PagesUpToIsPrefix` | backend/flaskr/__init__.py:13-17 | pages 1 to n laid end to end are the first `10*n` rows of the selection: paging loses and repeats nothing |
| `Paging.RowIsOnItsPage` | backend/flaskr/__init__.py:13-17 | row k of the selection appears on page `k/10 + 1` at position `k mod 10` |
| `Paging.NegativePageCountsFromEnd` | backend/flaskr/__init__.py:12-17 | page -1 is accepted and shows the rows 20 to 11 places from the end of the selection |
| `Trivia.Where` | backend/flaskr/__init__.py:211 | a filter keeps exactly the rows that satisfy it, and nothing else |
| `Trivia.WhereKeepsIdOrder` | backend/flaskr/__init__.py:185 | filtering a table ordered by id keeps it ordered by id |
| `Trivia.Find` | backend/flaskr/__init__.py:103-105 | the lookup by id finds a row with that id exactly when one exists (on a valid store, where ids are unique, that row is the only one) |
| `Trivia.RemovePresentIdDropsOne` | backend/flaskr/__init__.py:107 | in a table with unique ids, deleting a present id removes exactly one row |
| `Trivia.WhereDropsRejectedRow` | backend/flaskr/__init__.py:107 | deleting by id shortens the table when some row has that id, whether or not ids are unique |
| `Handlers.RetrieveCategories` | backend/flaskr/__init__.py:51-59 | the category listing always succeeds and maps every category id, and only those, to its type |
| `Handlers.RetrieveQuestions` | backend/flaskr/__init__.py:73-91 | an empty page answers 404, and for page 1 or more that happens exactly when `(page-1)*10` reaches the table size; otherwise, for page 1 or more, the page is the window of the table starting `(page-1)*10` rows in, holding `min(10, n - (page-1)*10)` rows, the total is the whole table size for every page, and all categories are returned; on every page, negative ones included, the rows come from the table |
| `Handlers.DeleteQuestionAsWritten` | backend/flaskr/__init__.py:100-129 | as written, every delete answers 422 and leaves the store unchanged |
| `Handlers.DeleteQuestion` | backend/flaskr/__init__.py:100-129 | with the lookup fixed, a missing id answers 422 and changes nothing; otherwise exactly the rows with that id are removed, the invariant is kept, and the table shrinks by one; a success reports the new total and every category, and for page 1 or more it succeeds exactly when the page of what remains is non-empty, and its rows are that page's window of the remaining table, `min(10, n' - (page-1)*10)` of them; on every page the rows come from the remaining table |
| `Handlers.CreateQuestion` | backend/flaskr/__init__.py:142-167 | one row is appended with the body's fields under a fresh id, earlier rows and categories are unchanged, and the invariant is kept; a success reports the new id and the old count plus one; failures are 422; page 1 always succeeds and page p succeeds exactly when `(p-1)*10` is at most the old count, and its rows are that page's window of the new table, `min(10, n+1 - (p-1)*10)` of them; on every page the rows come from the new table |
| `Handlers.SearchQuestionsAsWritten` | backend/flaskr/__init__.py:179-197 | as written, every search answers 422 |
| `Handlers.SearchQuestions` | backend/flaskr/__init__.py:179-197 | with the filter fixed, a search always succeeds, even with no match; each returned row is a table row whose text matches the `ILIKE` pattern; the total is the number of matching rows (not the page length), for page 1 or more the page is empty exactly when the total does not reach the page's offset, and otherwise it is the window of the matching rows starting `(page-1)*10` in, holding `min(10, total - (page-1)*10)` rows; on a valid store the page is in id order |
| `Handlers.CurrentCategory` | backend/flaskr/__init__.py:215-223 | `current_category` is empty for an unknown id; for a known id it succeeds exactly when the type formats, and then holds the formatted type (the type itself when it has no braces) |
| `Handlers.QuestionsByCategory` | backend/flaskr/__init__.py:208-226 | every returned row belongs to the category; the total is the page length; every failure is 422; for page 1 or more it succeeds exactly when the page is non-empty and the category's type formats, and a success holds the window of the category's rows starting `(page-1)*10` in, `min(10, count - (page-1)*10)` of them, and its `current_category` is the formatted type |
| `Handlers.QuizCandidates` | backend/flaskr/__init__.py:247-251 | the two quiz queries select exactly the rows not asked before, in the requested category unless that category is 0 |
| `Handlers.StartQuiz` | backend/flaskr/__init__.py:239-262 | a picked question is a table row, not among the previous ids, and in the requested category when that is not 0; the quiz succeeds exactly when both body fields are present and some eligible row exists; every failure is 422 |
| `Trivia.PageOfFilterKeepsIdOrder` | backend/flaskr/__init__.py:185-186 | a page of a filtered table ordered by id is in id order |
| `Trivia.FilteredRowIsOnSomePage` | backend/flaskr/__init__.py:211-214 | every row that passes a filter is on some page of the filtered table |
| `Properties.CreateThenListCountsOneMore` | backend/flaskr/__init__.py:151-164 | after a create, the listing's total is the old count plus one, and the new id occurs exactly once |
| `Properties.CreateThenDeleteRestores` | backend/flaskr/__init__.py:151-152 | deleting the row a create just inserted restores the table; only the id counter has moved |
| `Properties.SearchReturnsOnlyContainingQuestions` | backend/flaskr/__init__.py:185-192 | for a term without wildcards, every returned question contains the term, ignoring case |
| `Properties.SearchMissesNoContainingQuestion` | backend/flaskr/__init__.py:185-192 | for a term without wildcards, every question containing the term is on some page of the search |
| `Properties.SearchAsWrittenLosesMatches` | backend/flaskr/__init__.py:185 | a term some question contains gets 422 from the search as written, while the fixed search reports at least one match |
| `Properties.DeleteAsWrittenKeepsRow` | backend/flaskr/__init__.py:103 | the delete as written keeps an existing row and answers 422, while the fixed delete removes it |
| `Properties.CategoryViewKeepsIdOrder` | backend/flaskr/__init__.py:211 | a page of the category view is in id order |
| `Properties.CategoryViewMissesNoQuestion` | backend/flaskr/__init__.py:211-223 | when the category's type formats, every question of the category is on some page of the view that succeeds |
| `Properties.QuizCanPickAnyEligible` | backend/flaskr/__init__.py:247-255 | every eligible question can be drawn, which for category 0 means every question not asked before |
| `Properties.QuizWithNothingLeftIs422` | backend/flaskr/__init__.py:253-262 | with no eligible question left, the quiz answers 422 |
| `Properties.HandlersAnswerKnownStatus` | backend/flaskr/__init__.py:73-262 | for a request body that is a JSON object, no handler lets an exception escape as 500; only the plain listing answers 404 |

## Left out

- Flask application setup, CORS configuration and the `after_request` headers (`backend/flaskr/__init__.py:22-44`). These are framework configuration with no logic.
- The database layer and the `models` module (`setup_db`, `insert`, `delete`, column types). These are not part of this model. The store is an abstract value. Its invariant (ids ascending and below the serial counter) is assumed to be kept by the database. An insert or a delete is assumed always to succeed and to persist at once.
- `question.format()` is defined in `models`, which is not part of this model. A returned question is the row record itself. JSON serialisation is not modelled either. In particular, JSON turns the category map's integer keys into strings.
- `random.choice` becomes the `choice` parameter. Any index into the candidates can be drawn, and `Properties.QuizCanPickAnyEligible` shows every candidate is reachable. Uniformity of the draw is not modelled.
- Reading the request. `page` is given already parsed as an integer: 1 when absent or not an integer. Bodies that are not a JSON object are not modelled. A well-formed JSON body that is `null`, a list or a string reaches `body.get` outside the `try` in the create and search handlers (`backend/flaskr/__init__.py:144-148`, `181-182`), which fails and answers 500. A malformed JSON body makes `request.get_json()` itself answer 400, so `body.get` never runs. For a body with a content type other than JSON, the outcome depends on the Flask version. JSON values of a type other than the declared field types are not modelled, such as a category sent as the string `"6"`.
- Error handlers, their messages, and the 405 answer to an undefined method. The code does not define them (`backend/flaskr/__init__.py:264-270` is only a note), so the framework supplies them.
- `Like.ILike`: case folding covers ASCII letters only. The database's locale-dependent folding of other letters is not modelled.
- `Like.ILike`: a pattern that ends in a lone backslash is treated as no match. The database rejects such a pattern instead, but the search pattern always ends in `%`, so it never occurs.
- `Trivia.Find`: on a table with a repeated id, `one_or_none()` would raise and the delete would answer 422 with nothing deleted, while the model deletes every copy. Such a table is impossible because `id` is the primary key, so `Valid` excludes it.
- The `print(e)` in the delete handler's `except` clause (`backend/flaskr/__init__.py:128`) writes to the console only and does not change the response.
- Concurrency and transaction isolation between requests. Each call is one whole request on one store value.
- `backend/test_flaskr.py` needs a live database. It is used only as a record of the expected status codes.

## Findings

| source | as written | input that shows it | evidently intended | confidence | as-written member | corrected member |
|---|---|---|---|---|---|---|
| backend/flaskr/__init__.py:103 | `Question.query.filter(question_id.id == question_id)` reads `.id` on the integer path argument, which raises; the bare `except` answers 422 | `DELETE /questions/<id>` for any id of an existing question: the answer is 422 and the row stays | `filter(Question.id == question_id)` | high (not executed) | `Handlers.DeleteQuestionAsWritten`, shown by `Properties.DeleteAsWrittenKeepsRow` | `Handlers.DeleteQuestion` |
| backend/flaskr/__init__.py:185 | `.all()` is applied to the `ilike(...)` expression inside `filter(...)`, which raises; the bare `except` answers 422 | `POST /questions/search` with `{"searchTerm": "What"}` while some question contains "What": the answer is 422, where `backend/test_flaskr.py:107-113` expects 200 | `.filter(Question.question.ilike(...)).all()` | high (not executed) | `Handlers.SearchQuestionsAsWritten`, shown by `Properties.SearchAsWrittenLosesMatches` | `Handlers.SearchQuestions` |

=== FILE: handlers.dfy ===
/** The request handlers of the trivia API as pure functions over the store.
    Parameters stand in for what a handler reads from the request: `page` is
    the `page` query argument already parsed (1 when it is absent or not an
    integer), and the JSON body is a record of optional fields. Handlers that
    write return the store after the request together with the response,
    because a write persists even when the response is an error. */
module Handlers {
  import opened Outcomes
  import opened Text
  import opened Like
  import opened Paging
  import opened Trivia

  /** Body of POST /questions: each field is `None` when the key is absent. */
  datatype NewQuestion = NewQuestion(
    question: Option<string>,
    answer: Option<string>,
    difficulty: Option<int>,
    category: Option<int>)

  /** Body of POST /quizzes: `quizCategory` is the `id` of `quiz_category`,
      `None` when the object or its `id` key is missing. */
  datatype QuizBody = QuizBody(quizCategory: Option<int>, previousQuestions: Option<seq<int>>)

  datatype Listing = Listing(questions: seq<Question>, totalQuestions: int, categories: map<int, string>)
  datatype Created = Created(created: int, questions: seq<Question>, totalQuestions: int)
  /** The search response; its `current_category` is always null. */
  datatype SearchPage = SearchPage(questions: seq<Question>, totalQuestions: int)
  datatype CategoryPage = CategoryPage(questions: seq<Question>, totalQuestions: int, currentCategory: seq<string>)
  datatype QuizPick = QuizPick(question: Question)

  // ---------------------------------------------------------------- GET /categories

  /** Every category, keyed by id. */
  function RetrieveCategories(st: Store): (r: Result<map<int, string>>)
    ensures r.Ok?
    ensures forall id :: id in r.value <==> id in st.categories
    ensures forall id :: id in r.value ==> r.value[id] == st.categories[id]
  {
    Ok(st.categories)
  }

  // ---------------------------------------------------------------- GET /questions

  /** One page of the whole question table. An empty page is answered with
      404; otherwise the total is the size of the table, whatever the page. */
  function RetrieveQuestions(st: Store, page: int): (r: Result<Listing>)
    ensures r.Err? ==> r.error == Abort(NotFound)
    ensures page >= 1 ==> (r.Err? <==> Offset(page) >= |st.questions|)
    ensures page == 0 ==> r.Err?
    ensures r.Ok? ==> && 1 <= |r.value.questions| <= QuestionsPerPage
                      && r.value.totalQuestions == |st.questions|
                      && r.value.categories == st.categories
    ensures r.Ok? && page >= 1 ==>
              && Offset(page) + |r.value.questions| <= |st.questions|
              && r.value.questions == st.questions[Offset(page)..Offset(page) + |r.value.questions|]
    ensures r.Ok? && page >= 1 ==>
              |r.value.questions| == Min(QuestionsPerPage, |st.questions| - Offset(page))
    ensures r.Ok? ==> forall q :: q in r.value.questions ==> q in st.questions
  {
    var current := Paginate(st.questions, page);
    if |current| == 0 then Err(Abort(NotFound))
    else Ok(Listing(current, |st.questions|, st.categories))
  }

  // ---------------------------------------------------------------- DELETE /questions/<id>

  /** The delete handler as written: its lookup evaluates `.id` on the integer
      path argument, which raises before anything is deleted, and the bare
      `except` turns that into 422. No delete ever succeeds. */
  function DeleteQuestionAsWritten(st: Store, questionId: int, page: int): (out: (Store, Result<Listing>))
    ensures out.0 == st
    ensures Status(out.1) == Unprocessable
  {
    (st, TryExcept(Err(Raised(AttributeError))))
  }

  /** The delete handler with the lookup on `Question.id`: a missing id
      raises 404 inside the `try` and so answers 422; otherwise the row is
      deleted and the response is the listing of the given page of what is
      left, which answers 422 (the row stays deleted) when that page is
      empty. */
  function DeleteQuestion(st: Store, questionId: int, page: int): (out: (Store, Result<Listing>))
    ensures out.1.Err? ==> out.1.error == Abort(Unprocessable)
    ensures !HasId(st.questions, questionId) ==> out.0 == st && out.1.Err?
    ensures forall q :: q in out.0.questions <==> q in st.questions && q.id != questionId
    ensures out.0.categories == st.categories && out.0.nextId == st.nextId
    ensures Valid(st) ==> Valid(out.0)
    ensures Valid(st) && HasId(st.questions, questionId) ==>
              |out.0.questions| == |st.questions| - 1
    ensures out.1.Ok? ==> && HasId(st.questions, questionId)
                          && out.1.value.totalQuestions == |out.0.questions|
                          && 1 <= |out.1.value.questions| <= QuestionsPerPage
    ensures page >= 1 && HasId(st.questions, questionId) ==>
              (out.1.Ok? <==> Offset(page) < |out.0.questions|)
    ensures out.1.Ok? ==> out.1.value.categories == st.categories
    ensures out.1.Ok? && page >= 1 ==>
              && Offset(page) + |out.1.value.questions| <= |out.0.questions|
              && out.1.value.questions == out.0.questions[Offset(page)..Offset(page) + |out.1.value.questions|]
    ensures out.1.Ok? && page >= 1 ==>
              |out.1.value.questions| == Min(QuestionsPerPage, |out.0.questions| - Offset(page))
    ensures out.1.Ok? ==> forall q :: q in out.1.value.questions ==> q in out.0.questions
  {
    match Find(st.questions, questionId)
    case None => (st, TryExcept(Err(Abort(NotFound))))
    case Some(_) =>
      var st' := st.(questions := Where(st.questions, IdIsNot(questionId)));
      assert Valid(st) ==> Valid(st') by {
        if Valid(st) {
          WhereKeepsIdOrder(st.questions, IdIsNot(questionId));
          forall i | 0 <= i < |st'.questions| ensures st'.questions[i].id < st'.nextId {
            assert st'.questions[i] in st.questions;
          }
        }
      }
      assert Valid(st) ==> |st'.questions| == |st.questions| - 1 by {
        if Valid(st) {
          RemovePresentIdDropsOne(st.questions, questionId);
        }
      }
      (st', TryExcept(RetrieveQuestions(st', page)))
  }

  // ---------------------------------------------------------------- POST /questions

  /** The row the create handler inserts. */
  function NewRow(st: Store, body: NewQuestion): Question
  {
    Question(st.nextId, body.question, body.answer, body.difficulty, body.category)
  }

  /** Insert one row carrying the body's fields under the next serial id,
      then answer with the given page of the whole table (422, with the row
      inserted all the same, when that page is empty). */
  function CreateQuestion(st: Store, body: NewQuestion, page: int): (out: (Store, Result<Created>))
    ensures |out.0.questions| == |st.questions| + 1
    ensures out.0.questions[..|st.questions|] == st.questions
    ensures var row := out.0.questions[|st.questions|];
            && row.id == st.nextId
            && row.question == body.question && row.answer == body.answer
            && row.difficulty == body.difficulty && row.category == body.category
    ensures out.0.categories == st.categories
    ensures Valid(st) ==> Valid(out.0) && !HasId(st.questions, st.nextId)
    ensures out.1.Err? ==> out.1.error == Abort(Unprocessable)
    ensures out.1.Ok? ==> && out.1.value.created == st.nextId
                          && out.1.value.totalQuestions == |st.questions| + 1
                          && 1 <= |out.1.value.questions| <= QuestionsPerPage
    ensures page >= 1 ==> (out.1.Ok? <==> Offset(page) <= |st.questions|)
    ensures page == 1 ==> out.1.Ok?
    ensures out.1.Ok? && page >= 1 ==>
              && Offset(page) + |out.1.value.questions| <= |out.0.questions|
              && out.1.value.questions == out.0.questions[Offset(page)..Offset(page) + |out.1.value.questions|]
    ensures out.1.Ok? && page >= 1 ==>
              |out.1.value.questions| == Min(QuestionsPerPage, |out.0.questions| - Offset(page))
    ensures out.1.Ok? ==> forall q :: q in out.1.value.questions ==> q in out.0.questions
  {
    var row := NewRow(st, body);
    var st' := st.(questions := st.questions + [row], nextId := st.nextId + 1);
    assert st'.questions[..|st.questions|] == st.questions;
    var current := Paginate(st'.questions, page);
    var r := if |current| == 0 then Err(Abort(NotFound))
             else Ok(Created(row.id, current, |st'.questions|));
    (st', TryExcept(r))
  }

  // ---------------------------------------------------------------- POST /questions/search

  /** The `ILIKE` pattern built from the search term: a missing term is
      formatted as the text `None`. */
  function SearchPattern(term: Option<string>): string
  {
    var t := match term case Some(s) => s case None => "None";
    [AnyRun] + t + [AnyRun]
  }

  /** `Question.question.ilike(pattern)`: a null question text matches
      nothing. */
  function MatchesPattern(pattern: string): Question -> bool
  {
    (q: Question) => q.question.Some? && ILike(q.question.value, pattern)
  }

  /** The search handler as written: `.all()` is applied to the `ilike`
      expression inside `filter(...)`, which raises, and the bare `except`
      answers 422 for every search. */
  function SearchQuestionsAsWritten(st: Store, term: Option<string>, page: int): (r: Result<SearchPage>)
    ensures Status(r) == Unprocessable
  {
    TryExcept(Err(Raised(AttributeError)))
  }

  /** The search with `.all()` applied to the filtered query: the matching
      rows in id order, one page of them, and the number of all matches. No
      match is an empty success, not an error. */
  function SearchQuestions(st: Store, term: Option<string>, page: int): (r: Result<SearchPage>)
    ensures r.Ok?
    ensures |r.value.questions| <= QuestionsPerPage
    ensures r.value.totalQuestions == |Where(st.questions, MatchesPattern(SearchPattern(term)))|
    ensures forall q :: q in r.value.questions ==>
              q in st.questions && q.question.Some? && ILike(q.question.value, SearchPattern(term))
    ensures page >= 1 ==> (|r.value.questions| == 0 <==> r.value.totalQuestions <= Offset(page))
    ensures page >= 1 ==> |r.value.questions| <= r.value.totalQuestions
    ensures r.value.totalQuestions <= |st.questions|
    ensures Valid(st) ==> IdsAscending(r.value.questions)
    ensures page >= 1 && |r.value.questions| > 0 ==> Offset(page) + |r.value.questions| <= r.value.totalQuestions
    ensures page >= 1 ==> forall i :: 0 <= i < |r.value.questions| ==>
              r.value.questions[i] == Where(st.questions, MatchesPattern(SearchPattern(term)))[Offset(page) + i]
    ensures page >= 1 && Offset(page) < r.value.totalQuestions ==>
              |r.value.questions| == Min(QuestionsPerPage, r.value.totalQuestions - Offset(page))
  {
    var selection := Where(st.questions, MatchesPattern(SearchPattern(term)));
    assert Valid(st) ==> IdsAscending(Paginate(selection, page)) by {
      if Valid(st) {
        PageOfFilterKeepsIdOrder(st.questions, MatchesPattern(SearchPattern(term)), page);
      }
    }
    Ok(SearchPage(Paginate(selection, page), |selection|))
  }

  // ---------------------------------------------------------------- GET /categories/<id>/questions

  /** `current_category`: the category rows with the given id (at most one),
      each type passed through `str.format()`, which raises on braces. */
  function CurrentCategory(categories: map<int, string>, categoryId: int): (r: Result<seq<string>>)
    ensures categoryId !in categories ==> r == Ok([])
    ensures categoryId in categories && NoBraces(categories[categoryId]) ==>
              r == Ok([categories[categoryId]])
    ensures r.Ok? ==> (|r.value| == 1 <==> categoryId in categories) && |r.value| <= 1
    ensures categoryId in categories ==> (r.Ok? <==> Format(categories[categoryId]).Some?)
    ensures categoryId in categories && r.Ok? ==> r.value == [Format(categories[categoryId]).value]
  {
    if categoryId in categories then
      match Format(categories[categoryId])
      case Some(text) => Ok([text])
      case None => Err(Raised(FormatError))
    else Ok([])
  }

  function InCategory(categoryId: int): Question -> bool
  {
    (q: Question) => q.category == Some(categoryId)
  }

  /** One page of the questions in a category. An empty page raises 404
      inside the `try`, so it is answered with 422; the total reported is the
      length of the page, not the number of questions in the category. */
  function QuestionsByCategory(st: Store, categoryId: int, page: int): (r: Result<CategoryPage>)
    ensures r.Err? ==> r.error == Abort(Unprocessable)
    ensures r.Ok? ==> forall q :: q in r.value.questions ==> q in st.questions && q.category == Some(categoryId)
    ensures r.Ok? ==> r.value.totalQuestions == |r.value.questions| && 1 <= |r.value.questions| <= QuestionsPerPage
    ensures r.Ok? ==> (|r.value.currentCategory| == 1 <==> categoryId in st.categories)
    ensures r.Ok? ==> CurrentCategory(st.categories, categoryId) == Ok(r.value.currentCategory)
    ensures page >= 1 ==>
              (r.Ok? <==> && Offset(page) < |Where(st.questions, InCategory(categoryId))|
                          && (categoryId in st.categories ==> Format(st.categories[categoryId]).Some?))
    ensures r.Ok? && page >= 1 ==>
              Offset(page) + |r.value.questions| <= |Where(st.questions, InCategory(categoryId))|
    ensures r.Ok? && page >= 1 ==> forall i :: 0 <= i < |r.value.questions| ==>
              r.value.questions[i] == Where(st.questions, InCategory(categoryId))[Offset(page) + i]
    ensures r.Ok? && page >= 1 ==>
              |r.value.questions| == Min(QuestionsPerPage, |Where(st.questions, InCategory(categoryId))| - Offset(page))
  {
    var selection := Where(st.questions, InCategory(categoryId));
    var current := Paginate(selection, page);
    TryExcept(
      if |current| == 0 then Err(Abort(NotFound))
      else
        var currentCategory :- CurrentCategory(st.categories, categoryId);
        Ok(CategoryPage(current, |current|, currentCategory)))
  }

  // ---------------------------------------------------------------- POST /quizzes

  /** Which questions the quiz may ask next: not asked before, and in the
      requested category unless that category is 0 (all categories). */
  predicate Eligible(q: Question, categoryId: int, previous: seq<int>)
  {
    q.id !in previous && (categoryId == 0 || q.category == Some(categoryId))
  }

  /** The two queries of the quiz handler: `notin_(previous)` alone for
      category 0, together with the category filter otherwise. */
  function QuizFilter(categoryId: int, previous: seq<int>): Question -> bool
  {
    if categoryId == 0 then (q: Question) => q.id !in previous
    else (q: Question) => q.id !in previous && q.category == Some(categoryId)
  }

  function QuizCandidates(st: Store, categoryId: int, previous: seq<int>): (c: seq<Question>)
    ensures forall q :: q in c <==> q in st.questions && Eligible(q, categoryId, previous)
  {
    Where(st.questions, QuizFilter(categoryId, previous))
  }

  /** Pick a question for the quiz. `choice` stands for `random.choice`:
      any index into the candidates may be drawn. A missing category or
      previous-question list raises, and so does formatting the `None`
      question when no candidate is left; each is answered with 422. */
  function StartQuiz(st: Store, body: QuizBody, choice: nat): (r: Result<QuizPick>)
    ensures r.Err? ==> r.error == Abort(Unprocessable)
    ensures r.Ok? ==> && body.quizCategory.Some? && body.previousQuestions.Some?
                      && r.value.question in st.questions
                      && Eligible(r.value.question, body.quizCategory.value, body.previousQuestions.value)
    ensures r.Ok? <==> && body.quizCategory.Some? && body.previousQuestions.Some?
                       && exists q :: q in st.questions
                                      && Eligible(q, body.quizCategory.value, body.previousQuestions.value)
  {
    TryExcept(
      match body.quizCategory
      case None => Err(Raised(TypeError))
      case Some(categoryId) =>
        match body.previousQuestions
        case None => Err(Raised(ArgumentError))
        case Some(previous) =>
          var candidates := QuizCandidates(st, categoryId, previous);
          if |candidates| == 0 then Err(Raised(AttributeError))
          else
            assert candidates[choice % |candidates|] in candidates;
            Ok(QuizPick(candidates[choice % |candidates|])))
  }
}

=== FILE: like.dfy ===
/** PostgreSQL's `ILIKE` pattern match, which the search endpoint asks the
    database to apply: `%` stands for any run of characters, `_` for any one
    character, a backslash makes the next character literal, and letters
    compare without regard to case. */
module Like {
  import opened Text

  const AnyRun: char := '%'
  const AnyChar: char := '_'
  const EscapeChar: char := '\\'

  predicate IsSpecial(c: char)
  {
    c == AnyRun || c == AnyChar || c == EscapeChar
  }

  /** A search term with no character that `ILIKE` would interpret. */
  predicate Literal(w: string)
  {
    forall i :: 0 <= i < |w| ==> !IsSpecial(w[i])
  }

  /** `t ILIKE p`. A pattern ending in a lone escape character is an error in
      the database; it never arises here because the search pattern always
      ends in `%`, and the model treats it as no match. */
  function ILike(t: string, p: string): bool
    decreases |p| + |t|
  {
    if |p| == 0 then |t| == 0
    else if p[0] == AnyRun then ILike(t, p[1..]) || (|t| > 0 && ILike(t[1..], p))
    else if p[0] == AnyChar then |t| > 0 && ILike(t[1..], p[1..])
    else if p[0] == EscapeChar then
      |p| >= 2 && |t| > 0 && Lower(p[1]) == Lower(t[0]) && ILike(t[1..], p[2..])
    else |t| > 0 && Lower(p[0]) == Lower(t[0]) && ILike(t[1..], p[1..])
  }

  /** The pattern `%` matches every text. */
  lemma {:induction false} AnyRunMatchesAll(t: string)
    ensures ILike(t, [AnyRun])
  {
    assert [AnyRun][1..] == "";
    if |t| > 0 {
      AnyRunMatchesAll(t[1..]);
    }
  }

  /** `w%` matches exactly the texts that start with `w`, ignoring case. */
  lemma {:induction false} LiteralPrefixMatch(t: string, w: string)
    requires Literal(w)
    ensures ILike(t, w + [AnyRun]) <==> PrefixCI(w, t)
  {
    if |w| == 0 {
      assert w + [AnyRun] == [AnyRun];
      AnyRunMatchesAll(t);
    } else {
      var p := w + [AnyRun];
      assert p[0] == w[0] && !IsSpecial(w[0]);
      assert p[1..] == w[1..] + [AnyRun];
      if |t| > 0 {
        LiteralPrefixMatch(t[1..], w[1..]);
        if PrefixCI(w[1..], t[1..]) && Lower(w[0]) == Lower(t[0]) {
          forall i | 0 <= i < |w|
            ensures Lower(w[i]) == Lower(t[i])
          {
            if i > 0 {
              assert w[1..][i - 1] == w[i] && t[1..][i - 1] == t[i];
            }
          }
        }
        if PrefixCI(w, t) {
          forall i | 0 <= i < |w| - 1
            ensures Lower(w[1..][i]) == Lower(t[1..][i])
          {
            assert Lower(w[i + 1]) == Lower(t[i + 1]);
          }
        }
      }
    }
  }

  /** The search pattern `%w%` of a term without wildcards matches exactly the
      texts that contain the term, ignoring case. */
  lemma {:induction false} SearchPatternIsContainment(t: string, w: string)
    requires Literal(w)
    ensures ILike(t, [AnyRun] + w + [AnyRun]) <==> ContainsCI(t, w)
  {
    var p := [AnyRun] + w + [AnyRun];
    assert p[1..] == w + [AnyRun];
    LiteralPrefixMatch(t, w);
    assert t[0..] == t;
    if |t| > 0 {
      SearchPatternIsContainment(t[1..], w);
      if ContainsCI(t[1..], w) {
        var k :| 0 <= k <= |t[1..]| && PrefixCI(w, t[1..][k..]);
        assert t[1..][k..] == t[k + 1..];
      }
      if ContainsCI(t, w) && !PrefixCI(w, t) {
        var k :| 0 <= k <= |t| && PrefixCI(w, t[k..]);
        assert k > 0;
        assert t[1..][k - 1..] == t[k..];
      }
    } else {
      if ContainsCI(t, w) {
        var k :| 0 <= k <= |t| && PrefixCI(w, t[k..]);
        assert t[k..] == t;
      }
    }
  }
}

=== FILE: outcomes.dfy ===
/** Option and Result types for the request handlers, the failures a handler
    can raise, and the HTTP status the framework turns each outcome into. */
module Outcomes {

  const Success: int := 200
  const NotFound: int := 404
  const Unprocessable: int := 422
  const InternalError: int := 500

  datatype Option<+T> = None | Some(value: T)

  /** The Python exceptions the handlers can raise (other than `abort`). */
  datatype PyException =
    | AttributeError   // attribute lookup on an int, a SQL expression or `None`
    | TypeError        // reading `id` from a missing `quiz_category`
    | FormatError      // `str.format()` meeting a replacement field or a lone brace
    | ArgumentError    // `notin_(None)` in a query filter

  /** What ends a handler early: `abort(code)` or an exception. */
  datatype Failure = Abort(code: int) | Raised(exception: PyException)

  datatype Result<+T> = Ok(value: T) | Err(error: Failure) {
    predicate IsFailure() { Err? }

    function PropagateFailure<U>(): Result<U>
      requires Err?
    {
      Err(error)
    }

    function Extract(): T
      requires Ok?
    {
      value
    }
  }

  /** A `try` block whose `except` clause catches everything, including the
      HTTP exception `abort` raises, and calls `abort(422)`. */
  function TryExcept<T>(r: Result<T>): Result<T>
  {
    match r
    case Ok(_) => r
    case Err(_) => Err(Abort(Unprocessable))
  }

  /** The status code of a handler's response: an `abort` escapes with its
      code, an uncaught exception becomes an internal server error. */
  function Status<T>(r: Result<T>): int
  {
    match r
    case Ok(_) => Success
    case Err(Abort(code)) => code
    case Err(Raised(_)) => InternalError
  }

  /** Whatever happens inside the `try`, the answer is a success or 422: an
      `abort(404)` raised there never reaches the client as 404. */
  lemma CaughtFailureIsUnprocessable<T>(r: Result<T>)
    ensures Status(TryExcept(r)) == Success || Status(TryExcept(r)) == Unprocessable
    ensures r.Ok? <==> Status(TryExcept(r)) == Success
    ensures r.Ok? ==> TryExcept(r) == r
  {
  }
}

=== FILE: paging.dfy ===
/** The fixed-size pagination window every listing endpoint applies to its
    ordered selection, with Python's slicing rules for the window bounds. */
module Paging {

  /** Number of questions on one page. */
  const QuestionsPerPage: nat := 10

  function Min(a: int, b: int): int { if a <= b then a else b }

  /** Python's adjustment of one slice bound against a sequence of length
      `len`: a negative bound counts from the end, and the result is clamped
      into `0..len`. */
  function ClampBound(i: int, len: nat): (k: nat)
    ensures k <= len
    ensures 0 <= i ==> k == Min(i, len)
    ensures i < 0 ==> k == (if i + len < 0 then 0 else i + len)
  {
    if i < 0 then (if i + len < 0 then 0 else i + len)
    else if i > len then len
    else i
  }

  /** Python's `s[start:end]`. */
  function Slice<T>(s: seq<T>, start: int, end: int): (r: seq<T>)
    ensures |r| <= |s|
    ensures forall x :: x in r ==> x in s
    ensures 0 <= start <= end ==> r == s[Min(start, |s|)..Min(end, |s|)]
  {
    var a := ClampBound(start, |s|);
    var b := ClampBound(end, |s|);
    if a < b then s[a..b] else []
  }

  /** Index of the first row of a 1-based page. */
  function Offset(page: int): int
  {
    (page - 1) * QuestionsPerPage
  }

  /** Where the window of `page` starts once Python has adjusted its bounds. */
  function WindowStart(selectionLength: nat, page: int): (a: nat)
    ensures a <= selectionLength
    ensures page >= 1 ==> a == Min(Offset(page), selectionLength)
  {
    ClampBound(Offset(page), selectionLength)
  }

  /** The rows of `selection` shown on `page`. For a page of 1 or more this is
      the window that starts `Offset(page)` rows in; page 0 is always empty; a
      negative page counts windows back from the end of the selection. */
  function Paginate<T>(selection: seq<T>, page: int): (r: seq<T>)
    ensures |r| <= QuestionsPerPage
    ensures forall x :: x in r ==> x in selection
    ensures WindowStart(|selection|, page) + |r| <= |selection|
    ensures r == selection[WindowStart(|selection|, page)..WindowStart(|selection|, page) + |r|]
    ensures page >= 1 ==> (|r| == 0 <==> Offset(page) >= |selection|)
    ensures page >= 1 && Offset(page) < |selection| ==>
              |r| == Min(QuestionsPerPage, |selection| - Offset(page))
    ensures page >= 1 ==> forall i :: 0 <= i < |r| ==> r[i] == selection[Offset(page) + i]
    ensures page == 0 ==> r == []
  {
    Slice(selection, Offset(page), Offset(page) + QuestionsPerPage)
  }

  /** Pages 1 to `n` laid end to end. */
  function PagesUpTo<T>(selection: seq<T>, n: nat): seq<T>
  {
    if n == 0 then [] else PagesUpTo(selection, n - 1) + Paginate(selection, n)
  }

  /** Paging loses and repeats nothing: the first `n` pages together are the
      first `n * QuestionsPerPage` rows of the selection, in order. */
  lemma {:induction false} PagesUpToIsPrefix<T>(selection: seq<T>, n: nat)
    ensures PagesUpTo(selection, n) == selection[..Min(n * QuestionsPerPage, |selection|)]
  {
    if n > 0 {
      PagesUpToIsPrefix(selection, n - 1);
      var lo := Min((n - 1) * QuestionsPerPage, |selection|);
      var hi := Min(n * QuestionsPerPage, |selection|);
      var page := Paginate(selection, n);
      assert page == selection[lo..hi];
      assert selection[..lo] + selection[lo..hi] == selection[..hi];
    }
  }

  /** Row `k` of the selection is shown on page `k / 10 + 1`, at position
      `k % 10`. */
  lemma RowIsOnItsPage<T>(selection: seq<T>, k: int)
    requires 0 <= k < |selection|
    ensures 0 <= k % QuestionsPerPage < |Paginate(selection, k / QuestionsPerPage + 1)|
    ensures Paginate(selection, k / QuestionsPerPage + 1)[k % QuestionsPerPage] == selection[k]
  {
    var page := k / QuestionsPerPage + 1;
    assert Offset(page) + k % QuestionsPerPage == k;
  }

  /** A negative page is not rejected: page -1 shows the second-to-last
      window counted from the end of the selection. */
  lemma NegativePageCountsFromEnd<T>(selection: seq<T>)
    requires |selection| >= 2 * QuestionsPerPage
    ensures Paginate(selection, -1) ==
              selection[|selection| - 2 * QuestionsPerPage..|selection| - QuestionsPerPage]
  {
  }
}

=== FILE: properties.dfy ===
/** Properties that relate several handler calls, or a handler to an
    independent statement of what it is for. */
module Properties {
  import opened Outcomes
  import opened Text
  import opened Like
  import opened Paging
  import opened Trivia
  import opened Handlers

  // ---------------------------------------------------------------- create, list, delete

  /** After a create, the listing counts exactly one more question, and the
      new id occurs exactly once in the table. */
  lemma CreateThenListCountsOneMore(st: Store, body: NewQuestion, page: int)
    requires Valid(st)
    ensures var st' := CreateQuestion(st, body, page).0;
            && RetrieveQuestions(st', 1).Ok?
            && RetrieveQuestions(st', 1).value.totalQuestions == |st.questions| + 1
            && |Where(st'.questions, IdIs(st.nextId))| == 1
  {
    var st' := CreateQuestion(st, body, page).0;
    assert st'.questions == st.questions + [NewRow(st, body)];
    WhereAppend(st.questions, [NewRow(st, body)], IdIs(st.nextId));
    WhereNoneKept(st.questions, IdIs(st.nextId));
    assert [NewRow(st, body)][1..] == [];
  }

  /** Deleting the row a create just inserted gives back the table as it was;
      only the id counter has moved on. */
  lemma CreateThenDeleteRestores(st: Store, body: NewQuestion, page: int, deletePage: int)
    requires Valid(st)
    ensures DeleteQuestion(CreateQuestion(st, body, page).0, st.nextId, deletePage).0
              == st.(nextId := st.nextId + 1)
  {
    var st' := CreateQuestion(st, body, page).0;
    var row := NewRow(st, body);
    assert st'.questions == st.questions + [row];
    assert row in st'.questions;
    WhereAppend(st.questions, [row], IdIsNot(st.nextId));
    WhereAllKept(st.questions, IdIsNot(st.nextId));
    assert [row][1..] == [];
  }

  // ---------------------------------------------------------------- search

  /** For a search term without wildcard characters, every question the
      search returns contains the term, ignoring case. */
  lemma SearchReturnsOnlyContainingQuestions(st: Store, w: string, page: int)
    requires Literal(w)
    ensures forall q :: q in SearchQuestions(st, Some(w), page).value.questions ==>
              q in st.questions && q.question.Some? && ContainsCI(q.question.value, w)
  {
    var pattern := SearchPattern(Some(w));
    assert pattern == [AnyRun] + w + [AnyRun];
    var r := SearchQuestions(st, Some(w), page).value.questions;
    forall q | q in r
      ensures q.question.Some? && ContainsCI(q.question.value, w)
    {
      assert MatchesPattern(pattern)(q);
      SearchPatternIsContainment(q.question.value, w);
    }
  }

  /** For a search term without wildcard characters, every question that
      contains the term, ignoring case, is on some page of the search. */
  lemma SearchMissesNoContainingQuestion(st: Store, w: string, q: Question)
    requires Literal(w)
    requires q in st.questions && q.question.Some? && ContainsCI(q.question.value, w)
    ensures exists p :: p >= 1 && q in SearchQuestions(st, Some(w), p).value.questions
  {
    var pattern := SearchPattern(Some(w));
    assert pattern == [AnyRun] + w + [AnyRun];
    SearchPatternIsContainment(q.question.value, w);
    FilteredRowIsOnSomePage(st.questions, MatchesPattern(pattern), q);
    var p :| p >= 1 && q in Paginate(Where(st.questions, MatchesPattern(pattern)), p);
    assert q in SearchQuestions(st, Some(w), p).value.questions;
  }

  /** The search as written loses every match: a term some question contains
      is answered with 422, where the search with the filter applied first
      reports it. */
  lemma SearchAsWrittenLosesMatches(st: Store, w: string, q: Question)
    requires Literal(w)
    requires q in st.questions && q.question.Some? && ContainsCI(q.question.value, w)
    ensures SearchQuestions(st, Some(w), 1).value.totalQuestions >= 1
    ensures |SearchQuestions(st, Some(w), 1).value.questions| >= 1
    ensures SearchQuestionsAsWritten(st, Some(w), 1) == Err(Abort(Unprocessable))
  {
    var pattern := SearchPattern(Some(w));
    assert pattern == [AnyRun] + w + [AnyRun];
    SearchPatternIsContainment(q.question.value, w);
    var sel := Where(st.questions, MatchesPattern(pattern));
    assert q in sel;
  }

  // ---------------------------------------------------------------- delete as written

  /** The delete as written leaves the row in place and answers 422, where the
      delete with the lookup on `Question.id` removes it. */
  lemma DeleteAsWrittenKeepsRow(st: Store, q: Question, page: int)
    requires q in st.questions
    ensures q in DeleteQuestionAsWritten(st, q.id, page).0.questions
    ensures Status(DeleteQuestionAsWritten(st, q.id, page).1) == Unprocessable
    ensures q !in DeleteQuestion(st, q.id, page).0.questions
    ensures |DeleteQuestion(st, q.id, page).0.questions| < |st.questions|
  {
    WhereDropsRejectedRow(st.questions, IdIsNot(q.id), q);
  }

  // ---------------------------------------------------------------- category view

  /** A page of the category view is in id order. */
  lemma CategoryViewKeepsIdOrder(st: Store, categoryId: int, page: int)
    requires Valid(st)
    requires QuestionsByCategory(st, categoryId, page).Ok?
    ensures IdsAscending(QuestionsByCategory(st, categoryId, page).value.questions)
  {
    PageOfFilterKeepsIdOrder(st.questions, InCategory(categoryId), page);
  }

  /** Every question of a category is on some page of its view, provided the
      category's type formats. */
  lemma CategoryViewMissesNoQuestion(st: Store, categoryId: int, q: Question)
    requires categoryId !in st.categories || Format(st.categories[categoryId]).Some?
    requires q in st.questions && q.category == Some(categoryId)
    ensures exists p :: p >= 1 && QuestionsByCategory(st, categoryId, p).Ok?
                        && q in QuestionsByCategory(st, categoryId, p).value.questions
  {
    FilteredRowIsOnSomePage(st.questions, InCategory(categoryId), q);
    var p :| p >= 1 && q in Paginate(Where(st.questions, InCategory(categoryId)), p);
    assert q in QuestionsByCategory(st, categoryId, p).value.questions;
  }

  // ---------------------------------------------------------------- quiz

  /** Every eligible question can be drawn: `random.choice` ranges over all of
      them. With category 0 this is every question not asked before. */
  lemma QuizCanPickAnyEligible(st: Store, categoryId: int, previous: seq<int>, q: Question)
    requires q in st.questions && Eligible(q, categoryId, previous)
    ensures exists choice: nat ::
              StartQuiz(st, QuizBody(Some(categoryId), Some(previous)), choice) == Ok(QuizPick(q))
  {
    var candidates := QuizCandidates(st, categoryId, previous);
    var k :| 0 <= k < |candidates| && candidates[k] == q;
    assert k % |candidates| == k;
    assert StartQuiz(st, QuizBody(Some(categoryId), Some(previous)), k) == Ok(QuizPick(q));
  }

  /** With no question left to ask, the quiz answers 422: the handler formats
      a `None` question. */
  lemma QuizWithNothingLeftIs422(st: Store, categoryId: int, previous: seq<int>, choice: nat)
    requires forall i :: 0 <= i < |st.questions| ==> !Eligible(st.questions[i], categoryId, previous)
    ensures StartQuiz(st, QuizBody(Some(categoryId), Some(previous)), choice) == Err(Abort(Unprocessable))
  {
  }

  // ---------------------------------------------------------------- status codes

  /** No handler lets an exception escape: every answer is 200, 404 or 422,
      and only the plain listing answers 404. */
  lemma HandlersAnswerKnownStatus(st: Store, id: int, page: int, body: NewQuestion,
                                  term: Option<string>, quiz: QuizBody, choice: nat)
    ensures Status(RetrieveQuestions(st, page)) in {Success, NotFound}
    ensures Status(DeleteQuestion(st, id, page).1) in {Success, Unprocessable}
    ensures Status(CreateQuestion(st, body, page).1) in {Success, Unprocessable}
    ensures Status(SearchQuestions(st, term, page)) == Success
    ensures Status(QuestionsByCategory(st, id, page)) in {Success, Unprocessable}
    ensures Status(StartQuiz(st, quiz, choice)) in {Success, Unprocessable}
  {
  }
}

=== FILE: text.dfy ===
/** Character-level text operations the handlers rely on: ASCII case
    folding, case-insensitive containment (what a search promises), and
    Python's `str.format()` called with no arguments. */
module Text {
  import opened Outcomes

  /** Lower-case an ASCII letter; every other character is left alone. */
  function Lower(c: char): (d: char)
    ensures 'A' <= c <= 'Z' ==> 'a' <= d <= 'z' && d as int - c as int == 32
    ensures !('A' <= c <= 'Z') ==> d == c
  {
    if 'A' <= c <= 'Z' then (c as int + 32) as char else c
  }

  /** `w` is a prefix of `t` when both are compared case-insensitively. */
  predicate PrefixCI(w: string, t: string)
  {
    |w| <= |t| && forall i :: 0 <= i < |w| ==> Lower(w[i]) == Lower(t[i])
  }

  /** `w` occurs somewhere in `t` when both are compared case-insensitively. */
  ghost predicate ContainsCI(t: string, w: string)
  {
    exists k :: 0 <= k <= |t| && PrefixCI(w, t[k..])
  }

  predicate IsBrace(c: char)
  {
    c == '{' || c == '}'
  }

  predicate NoBraces(s: string)
  {
    forall i :: 0 <= i < |s| ==> !IsBrace(s[i])
  }

  /** `s.format()` with no arguments: a doubled brace stands for one brace,
      and any other brace opens a replacement field that has no argument to
      fill it (or is a lone brace), which raises. The result is never longer
      than `s`, and has the same length exactly when `s` holds no braces. */
  function Format(s: string): (r: Option<string>)
    ensures r.Some? ==> |r.value| <= |s|
    ensures r.Some? ==> (|r.value| == |s| <==> NoBraces(s))
    ensures NoBraces(s) ==> r == Some(s)
  {
    if |s| == 0 then Some("")
    else if IsBrace(s[0]) then
      if |s| >= 2 && s[1] == s[0] then
        match Format(s[2..])
        case Some(rest) => Some([s[0]] + rest)
        case None => None
      else None
    else
      assert s == [s[0]] + s[1..];
      match Format(s[1..])
      case Some(rest) => Some([s[0]] + rest)
      case None => None
  }

  /** The inverse of `Format`: every brace written twice. */
  function EscapeBraces(s: string): (e: string)
    ensures |e| >= |s|
  {
    if |s| == 0 then ""
    else if IsBrace(s[0]) then [s[0], s[0]] + EscapeBraces(s[1..])
    else [s[0]] + EscapeBraces(s[1..])
  }

  /** Formatting undoes brace escaping, for every string. */
  lemma {:induction false} FormatEscapeRoundTrip(s: string)
    ensures Format(EscapeBraces(s)) == Some(s)
  {
    if |s| > 0 {
      var e := EscapeBraces(s);
      FormatEscapeRoundTrip(s[1..]);
      if IsBrace(s[0]) {
        assert e[2..] == EscapeBraces(s[1..]);
      } else {
        assert e[1..] == EscapeBraces(s[1..]);
      }
      assert [s[0]] + s[1..] == s;
    }
  }

  /** Only an escaped string formats: whatever `Format` accepts is the
      brace-doubled form of its result, so a lone brace or a replacement
      field makes it fail. */
  lemma {:induction false} FormatOnlyUndoesEscaping(s: string)
    requires Format(s).Some?
    ensures EscapeBraces(Format(s).value) == s
  {
    if |s| > 0 {
      if IsBrace(s[0]) {
        FormatOnlyUndoesEscaping(s[2..]);
        assert s == [s[0], s[0]] + s[2..];
        assert Format(s).value == [s[0]] + Format(s[2..]).value;
        assert Format(s).value[1..] == Format(s[2..]).value;
      } else {
        FormatOnlyUndoesEscaping(s[1..]);
        assert s == [s[0]] + s[1..];
        assert Format(s).value == [s[0]] + Format(s[1..]).value;
        assert Format(s).value[1..] == Format(s[1..]).value;
      }
    }
  }
}

=== FILE: trivia.dfy ===
/** The data the handlers read and write: the question table, kept in id
    order, and the category table as a map from id to its type label. */
module Trivia {
  import opened Outcomes
  import opened Paging

  /** One question row. A field the create request left out is stored as
      null, which `None` stands for. */
  datatype Question = Question(
    id: int,
    question: Option<string>,
    answer: Option<string>,
    difficulty: Option<int>,
    category: Option<int>)

  /** The database: the question table in id order, the category table, and
      the id the table's serial column hands out next. */
  datatype Store = Store(questions: seq<Question>, categories: map<int, string>, nextId: int)

  /** Ids strictly increase along the sequence, so no id occurs twice. */
  predicate IdsAscending(qs: seq<Question>)
  {
    forall i, j :: 0 <= i < j < |qs| ==> qs[i].id < qs[j].id
  }

  /** What the database keeps true: the table is ordered by its primary key,
      and every id handed out so far is below the next one. */
  predicate Valid(st: Store)
  {
    && IdsAscending(st.questions)
    && forall i :: 0 <= i < |st.questions| ==> st.questions[i].id < st.nextId
  }

  predicate HasId(qs: seq<Question>, id: int)
  {
    exists q :: q in qs && q.id == id
  }

  /** A `filter(...)` clause applied to a table read in order: the rows that
      satisfy `keep`, in their original order. */
  function Where(qs: seq<Question>, keep: Question -> bool): (r: seq<Question>)
    ensures |r| <= |qs|
    ensures forall q :: q in r <==> q in qs && keep(q)
  {
    if |qs| == 0 then []
    else (if keep(qs[0]) then [qs[0]] else []) + Where(qs[1..], keep)
  }

  function IdIsNot(id: int): Question -> bool
  {
    (q: Question) => q.id != id
  }

  function IdIs(id: int): Question -> bool
  {
    (q: Question) => q.id == id
  }

  /** `query.filter(Question.id == id).one_or_none()` on a table whose ids
      are unique. */
  function Find(qs: seq<Question>, id: int): (r: Option<Question>)
    ensures r.Some? ==> r.value in qs && r.value.id == id
    ensures r.None? <==> !HasId(qs, id)
  {
    if |qs| == 0 then None
    else if qs[0].id == id then Some(qs[0])
    else Find(qs[1..], id)
  }

  lemma TailIdsAscending(qs: seq<Question>)
    requires |qs| > 0 && IdsAscending(qs)
    ensures IdsAscending(qs[1..])
  {
    var tail := qs[1..];
    forall i, j | 0 <= i < j < |tail| ensures tail[i].id < tail[j].id {
      assert tail[i] == qs[i + 1] && tail[j] == qs[j + 1];
    }
  }

  lemma ConsIdsAscending(h: Question, rest: seq<Question>)
    requires IdsAscending(rest)
    requires forall x :: x in rest ==> h.id < x.id
    ensures IdsAscending([h] + rest)
  {
    var r := [h] + rest;
    forall i, j | 0 <= i < j < |r| ensures r[i].id < r[j].id {
      assert r[j] == rest[j - 1];
      if i > 0 {
        assert r[i] == rest[i - 1];
      } else {
        assert r[j] in rest;
      }
    }
  }

  /** Filtering an id-ordered table keeps it id-ordered. */
  lemma {:induction false} WhereKeepsIdOrder(qs: seq<Question>, keep: Question -> bool)
    requires IdsAscending(qs)
    ensures IdsAscending(Where(qs, keep))
  {
    if |qs| > 0 {
      var tail := qs[1..];
      TailIdsAscending(qs);
      WhereKeepsIdOrder(tail, keep);
      var rest := Where(tail, keep);
      if keep(qs[0]) {
        forall x | x in rest ensures qs[0].id < x.id {
          var j :| 0 <= j < |tail| && tail[j] == x;
          assert x == qs[j + 1];
        }
        ConsIdsAscending(qs[0], rest);
      } else {
        assert Where(qs, keep) == rest;
      }
    }
  }

  /** Filtering a concatenation filters each part. */
  lemma {:induction false} WhereAppend(a: seq<Question>, b: seq<Question>, keep: Question -> bool)
    ensures Where(a + b, keep) == Where(a, keep) + Where(b, keep)
  {
    if |a| == 0 {
      assert a + b == b;
    } else {
      assert (a + b)[1..] == a[1..] + b;
      WhereAppend(a[1..], b, keep);
    }
  }

  /** A filter every row passes changes nothing. */
  lemma {:induction false} WhereAllKept(qs: seq<Question>, keep: Question -> bool)
    requires forall i :: 0 <= i < |qs| ==> keep(qs[i])
    ensures Where(qs, keep) == qs
  {
    if |qs| > 0 {
      WhereAllKept(qs[1..], keep);
      assert [qs[0]] + qs[1..] == qs;
    }
  }

  /** A filter no row passes leaves nothing. */
  lemma {:induction false} WhereNoneKept(qs: seq<Question>, keep: Question -> bool)
    requires forall i :: 0 <= i < |qs| ==> !keep(qs[i])
    ensures Where(qs, keep) == []
  {
    if |qs| > 0 {
      WhereNoneKept(qs[1..], keep);
    }
  }

  /** A filter that rejects some row makes the table shorter. */
  lemma {:induction false} WhereDropsRejectedRow(qs: seq<Question>, keep: Question -> bool, q: Question)
    requires q in qs && !keep(q)
    ensures |Where(qs, keep)| < |qs|
  {
    if qs[0] != q {
      WhereDropsRejectedRow(qs[1..], keep, q);
    }
  }

  /** Removing a present id from a table with unique ids drops exactly one
      row. */
  lemma {:induction false} RemovePresentIdDropsOne(qs: seq<Question>, id: int)
    requires IdsAscending(qs)
    requires HasId(qs, id)
    ensures |Where(qs, IdIsNot(id))| == |qs| - 1
  {
    var tail := qs[1..];
    if qs[0].id == id {
      forall i | 0 <= i < |tail| ensures IdIsNot(id)(tail[i]) {
        assert tail[i] == qs[i + 1];
      }
      WhereAllKept(tail, IdIsNot(id));
    } else {
      var q :| q in qs && q.id == id;
      assert q in tail;
      TailIdsAscending(qs);
      RemovePresentIdDropsOne(tail, id);
    }
  }

  /** A page of a filtered, id-ordered table is itself in id order. */
  lemma PageOfFilterKeepsIdOrder(qs: seq<Question>, keep: Question -> bool, page: int)
    requires IdsAscending(qs)
    ensures IdsAscending(Paginate(Where(qs, keep), page))
  {
    var sel := Where(qs, keep);
    WhereKeepsIdOrder(qs, keep);
    var r := Paginate(sel, page);
    var a := WindowStart(|sel|, page);
    forall i, j | 0 <= i < j < |r| ensures r[i].id < r[j].id {
      assert r[i] == sel[a + i] && r[j] == sel[a + j];
    }
  }

  /** Every row that passes a filter is shown on some page of the filtered
      table. */
  lemma FilteredRowIsOnSomePage(qs: seq<Question>, keep: Question -> bool, q: Question)
    requires q in qs && keep(q)
    ensures exists page :: page >= 1 && q in Paginate(Where(qs, keep), page)
  {
    var sel := Where(qs, keep);
    var k :| 0 <= k < |sel| && sel[k] == q;
    RowIsOnItsPage(sel, k);
    var page := k / QuestionsPerPage + 1;
    assert Paginate(sel, page)[k % QuestionsPerPage] == q;
  }
}
